=== FILE: README.md ===
# Inventory catalog: SKU allocation and the product table

This project models the non-UI core of a small Streamlit inventory app
(`app.py`). It covers two pieces:

- **SKU allocation** (`get_next_sku`). Every stored product id goes through
  Python's `str.replace('P-', '')`. The remaining text is cast to numpy int64
  with `astype(int)`, which means Python's `int()` on a string. The largest
  value plus one is written as `"P-" + format(n, "03d")`. An empty table gets
  `"P-001"`.
- **The `productos` table as a state machine.** It is an immutable
  `seq<Product>` in insertion order. The transitions are the SQL statements the
  forms run: the insert of the "add product" form, the five-column update of the
  "edit" form, the `activo = 1` listing, the full listing, and picking a row by
  its displayed name.

Files and modules:

- `results.dfy` (`Results`): `Option` and `Result`.
- `decimal.dfy` (`DecimalText`): Python's `int(str)` in base 10 and `format(n, "03d")`.
  - `int(str)` is a left-to-right reader. It skips the whitespace `int()`
    accepts, takes an optional sign, then digits with single underscores between them (leading
    zeros allowed), then only whitespace to the end.
  - `format(n, "03d")` zero-pads after the sign, so `-5` becomes `"-05"`.
- `sku.dfy` (`Sku`): `"P-"` removal, the column cast, the int64 range, the
  maximum and the allocated id. The maximum is computed in one pass
  (`MaxSuffix`). It is proved equal to pandas' two steps, a cast of the whole
  column followed by `max()`.
- `catalog.dfy` (`Catalog`): the `Product` row, the table operations, and the
  invariants of tables built through the forms.

Behaviour the model keeps from the code:

- `str.replace` is one left-to-right pass, so `"PP--"` becomes `"P-"`.
- Any id whose remainder `int()` rejects makes allocation fail. So does a value
  outside the int64 range. Ids like `"P-7"`, `" P-007 "` or `"P-1_0"` are accepted.
- `max + 1` is numpy int64 arithmetic. At 2^63-1 it wraps to -2^63.
  `Sku.NextSkuWrapCollides` shows the allocated id can then carry a number that
  is already stored. Freshness is proved for every table without that suffix.
- Padding gives *at least* three digits: after `P-999` comes `P-1000`.
- The whitespace `int()` skips is the ASCII tab, line feed, vertical tab, form
  feed, carriage return and space, plus the non-ASCII characters that
  `str.isspace` accepts. The ASCII separators 0x1C-0x1F are not in it, so
  `"P-\x1c7"` makes allocation fail.

Other behaviour of the code that the model keeps:

- An update of an id that is not stored matches no row and raises nothing
  (`Catalog.UpdateAbsentIsNoOp`).
- Allocation fails only where the cast fails. Any id whose remainder `int()`
  accepts is allowed.
- Nothing keeps stock non-negative. The edit form has no bounds, so `Update`
  takes any integer stock.

Rows are kept in insertion order. SQLite returns a rowid table scan without
`ORDER BY` in that order, but does not promise it. The model fixes the order so
that "first row with this name" has a meaning.

## Model

| member | source | states |
|---|---|---|
| DecimalText.ParseInt | app.py:45 | `int()` on a string, `None` where Python raises ValueError. Its meaning is stated by the lemmas below: digits read as their value, a minus sign negates, surrounding whitespace is ignored, '+' is accepted, one underscore between digits is a separator, the output of `format` reads back, and a string with no digit, a stray underscore, a sign after the first non-blank character, whitespace inside the number or a foreign character is rejected |
| DecimalText.SpaceExamples | app.py:45 | Tab, line feed and a no-break space around a number are ignored; the ASCII separator 0x1C makes `int()` fail |
| DecimalText.ShowNat | app.py:46 | The digits written for a number have no leading zero and read back as that number |
| DecimalText.Format03 | app.py:46 | `format(n, "03d")` has at least three characters; it starts with '-' exactly for negative n, and every other character is a digit. Text longer than three characters has no leading zero after the sign, so the padding is minimal |
| DecimalText.ParseDigits | app.py:45 | `int()` reads a non-empty string of digits as the number those digits denote |
| DecimalText.ParseNegative | app.py:45 | `int()` reads '-' followed by digits as the negation of their value |
| DecimalText.ParseIgnoresLeadingZeros | app.py:45 | Leading zeros do not change what `int()` reads, so "007" reads as 7 |
| DecimalText.ParseSkipsSpace | app.py:45 | For any whitespace runs w1 and w2, `int()` reads w1 + `format(n, "03d")` + w2 as n |
| DecimalText.ParseNeedsDigit | app.py:45 | A string without a digit, the empty string and whitespace alone included, is not an integer |
| DecimalText.ParseRejectsStrayUnderscore | app.py:45 | An underscore that does not stand between two digits ("_1", "1_", "1__0") makes the string not an integer |
| DecimalText.ParsePlus | app.py:45 | `int()` reads '+' followed by digits as the value of the digits |
| DecimalText.ParseUnderscore | app.py:45 | For non-empty digit strings a and b, `int()` reads a + "_" + b as the value of a + b, so "1_0" is 10 |
| DecimalText.ParseRejectsLateSign | app.py:45 | A '+' or '-' that comes after a non-whitespace character ("1-2", "--1") makes the string not an integer |
| DecimalText.ParseRejectsInnerSpace | app.py:45 | Whitespace with a non-whitespace character on each side of it ("1 2", "- 1") makes the string not an integer |
| DecimalText.ParseFormatRoundTrip | app.py:45-46 | `int()` applied to `format(n, "03d")` gives back n, for every integer n, negative ones included |
| DecimalText.Format03Injective | app.py:46 | Different numbers are written as different strings |
| DecimalText.ParseRejectsForeignChar | app.py:45 | A string containing a character that is not whitespace, sign, digit or underscore is not an integer |
| DecimalText.FormatSmall | app.py:46 | 1 and 2 are written "001" and "002"; 999 is written "999" and 1000 is written "1000" |
| Sku.StripMarks | app.py:45 | `str.replace("P-", "")`: every "P-" is removed in one left-to-right pass without overlaps, so removal never creates a new "P-" that is removed too. `Sku.StripMarksIdentity`, `Sku.StripMarksAppend` and `Sku.StripMarksExamples` state its meaning |
| Sku.StripMarksIdentity | app.py:45 | Removing "P-" leaves a string unchanged exactly when it contains no "P-"; otherwise the result is strictly shorter |
| Sku.StripMarksAppend | app.py:45 | Removal works piece by piece: for a + b where the cut does not split a "P-", the result is the removal from a followed by the removal from b |
| Sku.StripMarksExamples | app.py:45 | "P-" becomes "", "PP--" becomes "P-" (the "P-" left by the one pass stays), and "P-P-7" becomes "7" |
| Sku.Suffix | app.py:45 | A suffix that can be read lies in the int64 range |
| Sku.Suffixes | app.py:45 | `.str.replace('P-', '').astype(int)` on the whole id column: `Sku.CastAll` applied to every id's suffix. It is the reference side of `Sku.MaxSuffixIsColumnMax` |
| Sku.CastAll | app.py:45 | The column cast succeeds exactly when every element converts, and then yields every value in order; otherwise it raises what the first failing element raised |
| Sku.MaxOf | app.py:45 | No element of the column exceeds the maximum |
| Sku.MaxOfAttained | app.py:45 | The maximum is an element of the column |
| Sku.MaxSuffix | app.py:45 | The one-pass `.astype(int).max()` on a non-empty id column gives a value in the int64 range. `Sku.MaxSuffixIsColumnMax` and `Sku.MaxSuffixBounds` state its meaning |
| Sku.MaxSuffixIsColumnMax | app.py:45 | The one-pass maximum equals casting the whole column and then taking `max()`: the same error when the cast fails, the same value otherwise |
| Sku.MaxSuffixBounds | app.py:45 | The maximum exists exactly when every stored suffix can be read; it is then the suffix of a stored id, and no stored suffix exceeds it |
| Sku.Int64Succ | app.py:46 | `max + 1` on a numpy int64 stays in the int64 range; `Sku.NextSkuWraps` states that 2^63-1 wraps to -2^63 |
| Sku.NextSku | app.py:38-46 | Allocation on an empty table returns "P-001"; every id it returns starts with "P-" and has at least five characters |
| Sku.NextSkuFailsExactly | app.py:42-45 | Allocation fails exactly when some stored id's suffix cannot be cast |
| Sku.NextSkuReportsFirstError | app.py:45 | A failed allocation raises what the cast raised for the first stored id whose suffix cannot be read |
| Sku.SkuOf | app.py:46 | The f-string `f"P-{n:03d}"`. `Sku.SuffixOfSku` and `Sku.SkuOfInjective` state its meaning |
| Sku.SuffixOfSku | app.py:45-46 | The id allocated for n reads back, through the same strip-and-cast, as n |
| Sku.SkuOfInjective | app.py:46 | Distinct int64 values give distinct ids |
| Sku.FirstSku | app.py:42-43 | The empty table gets "P-001", whose suffix reads as 1 |
| Sku.NextSkuIsMaxPlusOne | app.py:45-46 | On a non-empty table with readable suffixes, some stored id holds the largest suffix m, and the new id is the one for m + 1 in int64 arithmetic |
| Sku.NextSkuAboveAll | app.py:45-46 | Unless a suffix is 2^63-1, every stored suffix is below the number of the id allocated |
| Sku.NextSkuFresh | app.py:45-46 | When every suffix can be read and none is 2^63-1, allocation succeeds and its id equals no stored id |
| Sku.NextSkuWraps | app.py:45-46 | With a stored suffix at 2^63-1, the new id reads back as -2^63 |
| Sku.NextSkuWrapCollides | app.py:45-46 | With one suffix at 2^63-1 and another at -2^63, the new id carries the number of that second stored id |
| Sku.NextSkuRejectsMalformed | app.py:45 | One stored id whose remainder holds a foreign character, such as "p-007" or "P-12a", makes allocation fail |
| Sku.NextSkuContinuesRun | app.py:38-46 | After ids numbered 1..n, allocation returns "P-" + format(n+1, "03d") |
| Sku.RunExtends | app.py:46 | Appending that id to ids numbered 1..n gives ids numbered 1..n+1 |
| Sku.RunFresh | app.py:46 | That id is not among ids numbered 1..n |
| Catalog.Insert | app.py:116-117 | The insert is refused exactly when the id is already stored; otherwise exactly one row is appended, and unique ids stay unique |
| Catalog.Create | app.py:112-117 | Adding a product fails with the cast error when allocation fails. After a successful allocation it fails exactly when the allocated id is already stored, with the primary-key error for that id. On success exactly one row is appended, earlier rows are unchanged, and the new row carries the allocated id, the submitted fields and activo = 1 |
| Catalog.CreateAfterAllocation | app.py:112-117 | Once an id is allocated, adding the product fails with the primary-key error exactly when that id is already stored; otherwise the new active row with that id and the submitted fields is appended |
| Catalog.CreateNeverCollides | app.py:112-117 | When every stored suffix can be read and none is 2^63-1, adding a product succeeds: the allocated id never clashes with the primary key |
| Catalog.Update | app.py:141-142 | The update keeps length, id, category, unit and image of every row. It sets name, both prices, stock and activo on the rows with the given id. Every other row is unchanged |
| Catalog.UpdateKeepsIds | app.py:141-142 | The id column is the same after an update, so unique ids stay unique |
| Catalog.UpdateAbsentIsNoOp | app.py:141-142 | Updating an id that is not stored leaves the table as it was |
| Catalog.UpdateIdempotent | app.py:141-142 | Submitting the same edit twice gives the table one submission gives |
| Catalog.ListActive | app.py:66 | The active listing holds only active rows and is no longer than the table |
| Catalog.ListActiveMembers | app.py:66 | A row is in the active listing exactly when it is a row of the table with activo = 1 |
| Catalog.ListActiveAppend | app.py:66 | The active listing keeps table order: it distributes over concatenation |
| Catalog.ListActiveWhole | app.py:151 | The active listing is the whole table exactly when every row is active |
| Catalog.DeactivateHides | app.py:141-142 | After an update with activo = 0 of a stored id, the id is absent from the active listing and still in the full listing |
| Catalog.ActivateShows | app.py:136-142 | After an update with activo = 1 of a stored id, the id is in the active listing |
| Catalog.FirstWithName | app.py:129 | The row picked for a name has that name, and no earlier row does; nothing is picked exactly when no row has that name |
| Catalog.EditByName | app.py:128-142 | The edit tab finds nothing exactly when no row has the chosen name (pandas raises IndexError); otherwise it returns a table of the same length |
| Catalog.EditByNameTouchesFirstOnly | app.py:128-142 | With unique ids, the edit tab rewrites the first row with the chosen name (name, both prices, stock and activo) and leaves every other row unchanged, later rows with the same name included |
| Catalog.OperationTarget | app.py:151-156 | The movements screen's lookup: the id of the first match by name among the active rows. `Catalog.OperationTargetIsFirstActive` states its meaning |
| Catalog.FirstActiveWithName | app.py:151-156 | The position found is the first row that is both active and has the name; nothing is found exactly when no such row exists |
| Catalog.OperationTargetIsFirstActive | app.py:151-156 | The movements screen's choice is the id of the first active row with the chosen name, in table order; an inactive row is never chosen |
| Catalog.CanonicalUnique | app.py:112-117 | A table whose id column is numbered 1..n in order has unique ids |
| Catalog.CreateOnCanonical | app.py:112-117 | On such a table, adding a product always succeeds and appends an active row with id "P-" + format(n+1, "03d") and the submitted fields |
| Catalog.CanonicalExtends | app.py:112-117 | Appending the row with that id keeps the table numbered 1..n+1 |
| Catalog.UpdateKeepsCanonical | app.py:141-142 | An edit keeps a table numbered 1..n |
| Catalog.FirstTwoProducts | app.py:42-46 | From an empty table, the first product added gets "P-001" with the submitted stock and activo = 1; the second gets "P-002" |

`Catalog.ListAll` is the full listing (app.py:124). It returns the table
itself, so it has no contract of its own. `Catalog.DeactivateHides` states what
it shows.

## Left out

- Page configuration, CSS, menus, forms, tabs and messages (app.py:11-19, app.py:58-169): this is UI rendering. Form submission is the call of the matching function.
- `init_db` (app.py:22-35): creating the tables is storage setup. The model starts from a table value.
- sqlite connections, commits and pandas DataFrames: these are I/O. The table is an in-memory `seq<Product>`, and each statement is one pure function.
- `process_image` (app.py:48-55): thumbnailing, JPEG re-encoding and base64 are library calls whose source is not part of this model. The encoded image is an opaque `Option<string>`.
- Movement processing (app.py:162-164): the code holds only a placeholder comment and never writes `movimientos`. No stock adjustment, totals or ledger are modelled.
- The WhatsApp link (app.py:166-167): this is URL quoting and string formatting for the UI.
- Prices are `real` values that are stored and compared, never computed with. Floating-point rounding does not arise.
- The form bounds on new products (app.py:97-100): `Create` accepts any stock and prices. Python's sqlite3 raises OverflowError for an integer outside 64 bits, but the form's integer inputs cannot produce one: Streamlit limits integer inputs to ±(2^53−1). The model therefore has no error case for the insert itself.
- The int64 width of `.astype(int)` (app.py:45): the model takes numpy's default integer to be 64 bits. With NumPy 1.x on Windows it is 32 bits, so the cast fails, and `get_next_sku` raises OverflowError, for suffixes above 2^31-1. That platform is not modelled.
- `DecimalText.ParseInt`: Python's `int()` also accepts non-ASCII decimal digits, and Python 3.11+ rejects strings of more than 4300 digits. Neither is modelled.
- `Sku.Suffix`: NULL ids are not modelled. The app never inserts one.
- `Sku.NextSkuFresh`: holds only when no stored suffix is 2^63-1. At that value the int64 addition wraps, and `Sku.NextSkuWrapCollides` shows the collision.
- `Sku.NextSkuWrapCollides`: states the collision on numbers. When the second id is stored exactly as "P--9223372036854775808", the two strings are equal, which follows from `Sku.SuffixOfSku` and is not stated separately.
- `Catalog.CreateNeverCollides`: carries the same hypothesis as `Sku.NextSkuFresh`, for the same reason.
- `Sku.NextSkuReportsFirstError`: "first" means first in table order. `SELECT id FROM productos` may be answered from the primary key's index, and then rows come back in id order, so the error Python raises can belong to another failing id.
- Row order is insertion order. SQLite does not guarantee this for a `SELECT` without `ORDER BY`.
- Concurrent sessions writing the same database are not modelled. Each operation is one atomic step on one table value.

=== FILE: catalog.dfy ===
/** The `productos` table as an in-memory sequence of rows in insertion order,
    with the statements the inventory screens run against it: the insert of the
    "add product" form, the update of the "edit" form, the active and full
    listings, and the lookup of a row by its displayed name. */
module Catalog {
  import opened Results
  import opened Sku

  /** One row of `productos`. Prices are stored values only (nothing computes
      with them); `active` is the `activo` column, which the forms set to 1 or 0. */
  datatype Product = Product(
    id: string,
    name: string,
    category: string,
    wholesalePrice: real,
    retailPrice: real,
    stock: int,
    unit: string,
    image: Option<string>,
    active: bool)

  type Table = seq<Product>

  /** What adding a product can raise: the id column could not be cast while
      allocating, or the allocated id is already stored (primary key clash). */
  datatype CatalogError = CorruptId(cause: SkuError) | DuplicateId(id: string)

  /** The `id` column, in table order. */
  function Ids(t: Table): (r: seq<string>)
    ensures |r| == |t|
    ensures forall i | 0 <= i < |t| :: r[i] == t[i].id
  {
    seq(|t|, i requires 0 <= i < |t| => t[i].id)
  }

  /** The primary-key property of `id`. */
  predicate UniqueIds(t: Table) {
    forall i, j | 0 <= i < j < |t| :: t[i].id != t[j].id
  }

  /** `INSERT INTO productos VALUES (...)`: refused when the id is already stored,
      otherwise the row is added after the existing ones. */
  function Insert(t: Table, p: Product): (r: Result<Table, CatalogError>)
    ensures r.Success? <==> p.id !in Ids(t)
    ensures r.Failure? ==> r.error == DuplicateId(p.id)
    ensures r.Success? ==> r.value == t + [p]
    ensures r.Success? && UniqueIds(t) ==> UniqueIds(r.value)
  {
    if p.id in Ids(t) then Failure(DuplicateId(p.id)) else Success(t + [p])
  }

  /** The "add product" form: allocate the next SKU, then insert an active row
      carrying the submitted fields and the already encoded image. It fails
      when the allocation fails, and when the allocated id is already stored. */
  function Create(t: Table, name: string, category: string, wholesalePrice: real,
                  retailPrice: real, stock: int, unit: string, image: Option<string>)
    : (r: Result<Table, CatalogError>)
    ensures NextSku(Ids(t)).Failure? ==> r == Failure(CorruptId(NextSku(Ids(t)).error))
    ensures r.Failure? && r.error.CorruptId? ==> NextSku(Ids(t)) == Failure(r.error.cause)
    ensures r.Failure? && r.error.DuplicateId? ==> NextSku(Ids(t)) == Success(r.error.id) && r.error.id in Ids(t)
    ensures r.Success? ==> |r.value| == |t| + 1 && r.value[..|t|] == t
    ensures r.Success? ==> r.value[|t|].id !in Ids(t)
    ensures r.Success? ==>
      var p := r.value[|t|];
      && NextSku(Ids(t)) == Success(p.id)
      && p.name == name && p.category == category
      && p.wholesalePrice == wholesalePrice && p.retailPrice == retailPrice
      && p.stock == stock && p.unit == unit && p.image == image
      && p.active
    ensures r.Success? && UniqueIds(t) ==> UniqueIds(r.value)
  {
    match NextSku(Ids(t))
    case Failure(e) => Failure(CorruptId(e))
    case Success(id) =>
      Insert(t, Product(id, name, category, wholesalePrice, retailPrice, stock, unit, image, true))
  }

  /** The "edit" form's `UPDATE productos SET nombre, precio_mayo, precio_mino,
      stock, activo WHERE id = ?`. No row matching is not an error. */
  function Update(t: Table, id: string, name: string, wholesalePrice: real,
                  retailPrice: real, stock: int, active: bool): (r: Table)
    ensures |r| == |t|
    ensures forall i | 0 <= i < |t| ::
      && r[i].id == t[i].id && r[i].category == t[i].category
      && r[i].unit == t[i].unit && r[i].image == t[i].image
    ensures forall i | 0 <= i < |t| && t[i].id == id ::
      && r[i].name == name && r[i].wholesalePrice == wholesalePrice
      && r[i].retailPrice == retailPrice && r[i].stock == stock && r[i].active == active
    ensures forall i | 0 <= i < |t| && t[i].id != id :: r[i] == t[i]
  {
    if |t| == 0 then []
    else
      var head := if t[0].id == id
        then t[0].(name := name, wholesalePrice := wholesalePrice, retailPrice := retailPrice,
                   stock := stock, active := active)
        else t[0];
      [head] + Update(t[1..], id, name, wholesalePrice, retailPrice, stock, active)
  }

  /** `SELECT * FROM productos WHERE activo = 1`, in table order. */
  function ListActive(t: Table): (r: Table)
    ensures |r| <= |t|
    ensures forall i | 0 <= i < |r| :: r[i].active
  {
    if |t| == 0 then []
    else if t[0].active then [t[0]] + ListActive(t[1..])
    else ListActive(t[1..])
  }

  /** `SELECT * FROM productos`: every row, whatever its `activo`. */
  function ListAll(t: Table): Table {
    t
  }

  /** Position of the first row whose name equals `name`: what
      `df[df['nombre'] == name].iloc[0]` picks. */
  function FirstWithName(t: Table, name: string): (r: Option<nat>)
    ensures r.Some? ==> r.value < |t| && t[r.value].name == name
    ensures r.Some? ==> forall j | 0 <= j < r.value :: t[j].name != name
    ensures r.None? <==> forall j | 0 <= j < |t| :: t[j].name != name
  {
    if |t| == 0 then None
    else if t[0].name == name then Some(0)
    else
      match FirstWithName(t[1..], name)
      case None => None
      case Some(k) => Some(k + 1)
  }

  /** The edit tab: the product chosen by name in the full listing, then the
      update keyed by that row's id. `None` where pandas raises IndexError
      (no row has the name). */
  function EditByName(t: Table, chosen: string, name: string, wholesalePrice: real,
                      retailPrice: real, stock: int, active: bool): (r: Option<Table>)
    ensures r.None? <==> forall j | 0 <= j < |t| :: t[j].name != chosen
    ensures r.Some? ==> |r.value| == |t|
  {
    match FirstWithName(ListAll(t), chosen)
    case None => None
    case Some(i) => Some(Update(t, t[i].id, name, wholesalePrice, retailPrice, stock, active))
  }

  /** The movements screen: the id of the product chosen by name among the
      active rows (`df_p[df_p['nombre'] == op_prod]['id'].values[0]`). */
  function OperationTarget(t: Table, chosen: string): Option<string> {
    var act := ListActive(t);
    match FirstWithName(act, chosen)
    case None => None
    case Some(i) => Some(act[i].id)
  }

  // ---------------------------------------------------------------------------
  // Lemmas

  /** Ids are never reused: adding a product succeeds whenever every stored id
      has a readable suffix below the top of the int64 range, and the new row
      then carries an id that no earlier row has. */
  lemma CreateNeverCollides(t: Table, name: string, category: string, wholesalePrice: real,
                            retailPrice: real, stock: int, unit: string, image: Option<string>)
    requires AllReadable(Ids(t)) && BelowInt64Max(Ids(t))
    ensures Create(t, name, category, wholesalePrice, retailPrice, stock, unit, image).Success?
  {
    NextSkuFresh(Ids(t));
  }

  /** Once allocation has produced an id, the insert decides: the form fails
      with the primary-key error exactly when that id is already stored, and
      otherwise appends the new active row. */
  lemma CreateAfterAllocation(t: Table, name: string, category: string, wholesalePrice: real,
                              retailPrice: real, stock: int, unit: string, image: Option<string>,
                              id: string)
    requires NextSku(Ids(t)) == Success(id)
    ensures id in Ids(t) ==>
      Create(t, name, category, wholesalePrice, retailPrice, stock, unit, image) == Failure(DuplicateId(id))
    ensures id !in Ids(t) ==>
      Create(t, name, category, wholesalePrice, retailPrice, stock, unit, image)
      == Success(t + [Product(id, name, category, wholesalePrice, retailPrice, stock, unit, image, true)])
  {
  }

  /** `Update` never touches the id column, so the primary key stays unique. */
  lemma UpdateKeepsIds(t: Table, id: string, name: string, wholesalePrice: real,
                       retailPrice: real, stock: int, active: bool)
    ensures Ids(Update(t, id, name, wholesalePrice, retailPrice, stock, active)) == Ids(t)
    ensures UniqueIds(t) ==> UniqueIds(Update(t, id, name, wholesalePrice, retailPrice, stock, active))
  {
    var r := Update(t, id, name, wholesalePrice, retailPrice, stock, active);
    assert forall i | 0 <= i < |t| :: Ids(r)[i] == Ids(t)[i];
  }

  /** Updating an id that is not stored changes nothing (the statement matches
      no row and raises nothing). */
  lemma UpdateAbsentIsNoOp(t: Table, id: string, name: string, wholesalePrice: real,
                           retailPrice: real, stock: int, active: bool)
    requires id !in Ids(t)
    ensures Update(t, id, name, wholesalePrice, retailPrice, stock, active) == t
  {
    var r := Update(t, id, name, wholesalePrice, retailPrice, stock, active);
    forall i | 0 <= i < |t|
      ensures r[i] == t[i]
    {
      assert Ids(t)[i] == t[i].id;
    }
  }

  /** Submitting the same edit twice leaves the table as one submission did. */
  lemma UpdateIdempotent(t: Table, id: string, name: string, wholesalePrice: real,
                         retailPrice: real, stock: int, active: bool)
    ensures var once := Update(t, id, name, wholesalePrice, retailPrice, stock, active);
            Update(once, id, name, wholesalePrice, retailPrice, stock, active) == once
  {
  }

  /** A row is in the active listing exactly when it is an active row of the table. */
  lemma {:induction false} ListActiveMembers(t: Table, p: Product)
    ensures p in ListActive(t) <==> p in t && p.active
    decreases |t|
  {
    if |t| > 0 {
      ListActiveMembers(t[1..], p);
      assert t == [t[0]] + t[1..];
    }
  }

  /** The active listing keeps table order: it distributes over concatenation. */
  lemma {:induction false} ListActiveAppend(a: Table, b: Table)
    ensures ListActive(a + b) == ListActive(a) + ListActive(b)
    decreases |a|
  {
    if |a| > 0 {
      assert (a + b)[0] == a[0];
      assert (a + b)[1..] == a[1..] + b;
      ListActiveAppend(a[1..], b);
      if a[0].active {
        assert ListActive(a + b) == [a[0]] + ListActive(a[1..] + b);
      } else {
        assert ListActive(a + b) == ListActive(a[1..] + b);
      }
    } else {
      assert a + b == b;
    }
  }

  /** The active listing is the whole table exactly when every row is active. */
  lemma {:induction false} ListActiveWhole(t: Table)
    ensures ListActive(t) == t <==> forall i | 0 <= i < |t| :: t[i].active
    decreases |t|
  {
    if |t| > 0 {
      ListActiveWhole(t[1..]);
      if !t[0].active {
        assert |ListActive(t)| <= |t[1..]| < |t|;
      }
      if ListActive(t) == t {
        assert t[0].active;
        assert ListActive(t[1..]) == t[1..];
      }
    }
  }

  /** Soft deletion: after the edit form stores `activo = 0` for a stored id,
      the product disappears from the active listing but stays in the full one. */
  lemma DeactivateHides(t: Table, id: string, name: string, wholesalePrice: real,
                        retailPrice: real, stock: int)
    requires id in Ids(t)
    ensures var u := Update(t, id, name, wholesalePrice, retailPrice, stock, false);
            && id !in Ids(ListActive(u))
            && id in Ids(ListAll(u))
  {
    UpdateKeepsIds(t, id, name, wholesalePrice, retailPrice, stock, false);
    NoActiveRowWithId(Update(t, id, name, wholesalePrice, retailPrice, stock, false), id);
  }

  /** When every row with a given id is inactive, the active listing does not show that id. */
  lemma {:induction false} NoActiveRowWithId(t: Table, id: string)
    requires forall i | 0 <= i < |t| && t[i].id == id :: !t[i].active
    ensures id !in Ids(ListActive(t))
    decreases |t|
  {
    if |t| > 0 {
      NoActiveRowWithId(t[1..], id);
      if t[0].active {
        var l := [t[0]] + ListActive(t[1..]);
        assert l[1..] == ListActive(t[1..]);
      }
    }
  }

  /** Reactivating an id puts its row back into the active listing. */
  lemma ActivateShows(t: Table, id: string, name: string, wholesalePrice: real,
                      retailPrice: real, stock: int)
    requires id in Ids(t)
    ensures id in Ids(ListActive(Update(t, id, name, wholesalePrice, retailPrice, stock, true)))
  {
    var u := Update(t, id, name, wholesalePrice, retailPrice, stock, true);
    var i :| 0 <= i < |t| && Ids(t)[i] == id;
    ListActiveMembers(u, u[i]);
    assert u[i].active && u[i] in ListActive(u);
    var la := ListActive(u);
    var k :| 0 <= k < |la| && la[k] == u[i];
    assert Ids(la)[k] == id;
  }

  /** The edit tab changes the first row named `chosen` and, ids being unique,
      no other row: a later row with the same name is never the one edited. */
  lemma EditByNameTouchesFirstOnly(t: Table, chosen: string, name: string, wholesalePrice: real,
                                   retailPrice: real, stock: int, active: bool)
    requires UniqueIds(t)
    requires exists j | 0 <= j < |t| :: t[j].name == chosen
    ensures FirstWithName(t, chosen).Some?
    ensures var i := FirstWithName(t, chosen).value;
            var e := EditByName(t, chosen, name, wholesalePrice, retailPrice, stock, active);
            && e.Some? && |e.value| == |t|
            && e.value[i].name == name && e.value[i].stock == stock && e.value[i].active == active
            && e.value[i].wholesalePrice == wholesalePrice && e.value[i].retailPrice == retailPrice
            && forall j | 0 <= j < |t| && j != i :: e.value[j] == t[j]
  {
  }

  /** Position of the first row that is active and named `name`, searched
      directly in the full table. */
  function FirstActiveWithName(t: Table, name: string): (r: Option<nat>)
    ensures r.Some? ==> r.value < |t| && t[r.value].active && t[r.value].name == name
    ensures r.Some? ==> forall j | 0 <= j < r.value :: !(t[j].active && t[j].name == name)
    ensures r.None? <==> forall j | 0 <= j < |t| :: !(t[j].active && t[j].name == name)
  {
    if |t| == 0 then None
    else if t[0].active && t[0].name == name then Some(0)
    else
      match FirstActiveWithName(t[1..], name)
      case None => None
      case Some(k) => Some(k + 1)
  }

  /** The id of the row at an optional position. */
  function IdAt(t: Table, k: Option<nat>): Option<string>
    requires k.Some? ==> k.value < |t|
  {
    match k
    case None => None
    case Some(i) => Some(t[i].id)
  }

  /** The movements screen's choice, which filters the active rows and then
      takes the first match, is the first active row named `chosen` in table
      order; an inactive row with that name is never chosen. */
  lemma {:induction false} OperationTargetIsFirstActive(t: Table, chosen: string)
    ensures OperationTarget(t, chosen) == IdAt(t, FirstActiveWithName(t, chosen))
    decreases |t|
  {
    if |t| > 0 {
      var t1 := t[1..];
      if t[0].active && t[0].name == chosen {
        assert ListActive(t)[0] == t[0];
        assert FirstWithName(ListActive(t), chosen) == Some(0);
      } else {
        OperationTargetIsFirstActive(t1, chosen);
        ReferenceSkipsHead(t, chosen);
        TargetSkipsHead(t, chosen);
      }
    }
  }

  /** When the first row is not an active match, the direct search continues behind it. */
  lemma ReferenceSkipsHead(t: Table, chosen: string)
    requires |t| > 0 && !(t[0].active && t[0].name == chosen)
    ensures IdAt(t, FirstActiveWithName(t, chosen)) == IdAt(t[1..], FirstActiveWithName(t[1..], chosen))
  {
    match FirstActiveWithName(t[1..], chosen)
    case None =>
    case Some(k) => assert t[k + 1] == t[1..][k];
  }

  /** When the first row is not an active match, the movements screen's choice
      is the same with or without it. */
  lemma TargetSkipsHead(t: Table, chosen: string)
    requires |t| > 0 && !(t[0].active && t[0].name == chosen)
    ensures OperationTarget(t, chosen) == OperationTarget(t[1..], chosen)
  {
    var t1 := t[1..];
    if t[0].active {
      var la := ListActive(t);
      assert la == [t[0]] + ListActive(t1);
      ShiftedFirstWithName(t[0], ListActive(t1), chosen);
      match FirstWithName(ListActive(t1), chosen)
      case None =>
      case Some(k) => assert la[k + 1] == ListActive(t1)[k];
    } else {
      assert ListActive(t) == ListActive(t1);
    }
  }

  /** Searching behind a row with another name finds the same row, one position later. */
  lemma ShiftedFirstWithName(p: Product, t: Table, name: string)
    requires p.name != name
    ensures FirstWithName([p] + t, name) ==
            match FirstWithName(t, name)
            case None => None
            case Some(k) => Some(k + 1)
  {
    assert ([p] + t)[1..] == t;
  }

  // ---------------------------------------------------------------------------
  // The tables the forms can build

  /** The table after n products were added through the form from an empty
      table (edits in between allowed): its id column is a run, numbered
      1, 2, ..., n in order. */
  predicate Canonical(t: Table) {
    IsRun(Ids(t))
  }

  /** Distinct positions carry distinct ids. */
  lemma CanonicalUnique(t: Table)
    requires Canonical(t)
    ensures UniqueIds(t)
  {
    forall i, j | 0 <= i < j < |t|
      ensures t[i].id != t[j].id
    {
      assert Suffix(Ids(t)[i]) == Success(i + 1);
      assert Suffix(Ids(t)[j]) == Success(j + 1);
    }
  }

  /** Adding a product to a form-built table always succeeds and appends an
      active row with the next sequential id and the submitted fields. */
  lemma CreateOnCanonical(t: Table, name: string, category: string, wholesalePrice: real,
                          retailPrice: real, stock: int, unit: string, image: Option<string>)
    requires Canonical(t) && |t| + 1 < Int64Max
    ensures Create(t, name, category, wholesalePrice, retailPrice, stock, unit, image)
            == Success(t + [Product(SkuOf(|t| + 1), name, category, wholesalePrice, retailPrice,
                                    stock, unit, image, true)])
  {
    NextSkuContinuesRun(Ids(t));
    RunFresh(Ids(t));
  }

  /** The row appended with the next sequential id keeps the table form-built:
      ids come out strictly increasing and without gaps. */
  lemma CanonicalExtends(t: Table, p: Product)
    requires Canonical(t) && |t| + 1 < Int64Max && p.id == SkuOf(|t| + 1)
    ensures Canonical(t + [p])
  {
    SuffixOfSku(|t| + 1);
    var u := t + [p];
    assert forall i | 0 <= i < |t| :: u[i] == t[i];
  }

  /** The edit form keeps a form-built table form-built. */
  lemma UpdateKeepsCanonical(t: Table, id: string, name: string, wholesalePrice: real,
                             retailPrice: real, stock: int, active: bool)
    requires Canonical(t)
    ensures Canonical(Update(t, id, name, wholesalePrice, retailPrice, stock, active))
  {
  }

  /** From an empty table, the first product added gets "P-001" with the stock
      given and is active; the second gets "P-002". */
  lemma FirstTwoProducts(name: string, category: string, wholesalePrice: real,
                         retailPrice: real, stock: int, unit: string, image: Option<string>)
    ensures var r1 := Create([], name, category, wholesalePrice, retailPrice, stock, unit, image);
            && r1.Success? && |r1.value| == 1
            && r1.value[0].id == "P-001" && r1.value[0].stock == stock && r1.value[0].active
            && var r2 := Create(r1.value, name, category, wholesalePrice, retailPrice, stock, unit, image);
               r2.Success? && r2.value[1].id == "P-002"
  {
    SkuOfSmall();
    CreateOnCanonical([], name, category, wholesalePrice, retailPrice, stock, unit, image);
    var p1 := Product(SkuOf(1), name, category, wholesalePrice, retailPrice, stock, unit, image, true);
    assert [] + [p1] == [p1];
    CanonicalExtends([], p1);
    CreateOnCanonical([p1], name, category, wholesalePrice, retailPrice, stock, unit, image);
  }
}

=== FILE: decimal.dfy ===
/** Decimal text the way Python reads and writes it: `int(s)` applied to a
    string, and the `03d` format specification used in an f-string. */
module DecimalText {
  import opened Results

  predicate IsDigit(c: char) {
    '0' <= c <= '9'
  }

  predicate AllDigits(s: string) {
    forall i | 0 <= i < |s| :: IsDigit(s[i])
  }

  /** The whitespace `int()` ignores at both ends of its argument: the ASCII
      tab, line feed, vertical tab, form feed, carriage return and space, and
      every non-ASCII character `str.isspace` accepts (CPython turns those into
      a space before reading the number). The ASCII separators 0x1C-0x1F count
      as whitespace for `str.isspace` but not here: `int()` rejects them. */
  predicate IsSpace(c: char) {
    var k := c as int;
    || 0x09 <= k <= 0x0D
    || k == 0x20
    || k == 0x85 || k == 0xA0 || k == 0x1680
    || 0x2000 <= k <= 0x200A
    || k == 0x2028 || k == 0x2029 || k == 0x202F || k == 0x205F || k == 0x3000
  }

  function DigitValue(c: char): (d: nat)
    requires IsDigit(c)
    ensures d < 10
  {
    c as int - '0' as int
  }

  function DigitChar(d: nat): (c: char)
    requires d < 10
    ensures IsDigit(c) && DigitValue(c) == d
  {
    ('0' as int + d) as char
  }

  /** The number a string of decimal digits denotes, most significant digit first. */
  function DigitsValue(s: string): nat
    requires AllDigits(s)
    decreases |s|
  {
    if |s| == 0 then 0 else DigitsValue(s[..|s| - 1]) * 10 + DigitValue(s[|s| - 1])
  }

  /** The shortest decimal numeral of `n`: it starts with '0' only when it is "0". */
  function ShowNat(n: nat): (r: string)
    ensures |r| > 0 && AllDigits(r)
    ensures r[0] == '0' ==> n == 0
    ensures DigitsValue(r) == n
  {
    if n < 10 then [DigitChar(n)]
    else
      var front := ShowNat(n / 10);
      var r := front + [DigitChar(n % 10)];
      assert r[..|r| - 1] == front;
      r
  }

  function Zeros(k: nat): (r: string)
    ensures |r| == k
    ensures forall i | 0 <= i < k :: r[i] == '0'
  {
    if k == 0 then [] else Zeros(k - 1) + ['0']
  }

  /** `s` with '0' characters added in front until it is `width` long. */
  function PadZeros(s: string, width: nat): string {
    if |s| < width then Zeros(width - |s|) + s else s
  }

  /** Python's `format(n, "03d")`: the sign, then the magnitude written in decimal
      and padded with zeros after the sign so that the whole text has at least
      three characters (`-5` becomes "-05"). */
  function Format03(n: int): (r: string)
    ensures |r| >= 3
    ensures r[0] == '-' <==> n < 0
    ensures forall i | 0 <= i < |r| :: IsDigit(r[i]) || (i == 0 && r[i] == '-')
    ensures |r| > 3 ==> r[if n < 0 then 1 else 0] != '0'
  {
    if n >= 0 then PadZeros(ShowNat(n), 3) else "-" + PadZeros(ShowNat(-n), 2)
  }

  /** Python's `int(s)` for a string `s`, in base 10; `None` where Python raises
      ValueError. The text is read left to right: leading whitespace, an optional
      sign, digits in which a single '_' may stand between two digits (leading
      zeros allowed), then nothing but whitespace to the end. */
  function ParseInt(s: string): Option<int> {
    Lead(s, 0)
  }

  /** Reading from position `i` while still in the leading whitespace. */
  function Lead(s: string, i: nat): Option<int>
    requires i <= |s|
    decreases |s| - i
  {
    if i == |s| then None
    else if IsSpace(s[i]) then Lead(s, i + 1)
    else if s[i] == '-' then
      match Literal(s, i + 1)
      case None => None
      case Some(m) => Some(-m)
    else if s[i] == '+' then Literal(s, i + 1)
    else Literal(s, i)
  }

  /** The unsigned literal starting at position `i`, which must open with a digit. */
  function Literal(s: string, i: nat): Option<int>
    requires i <= |s|
  {
    if i < |s| && IsDigit(s[i]) then Digits(s, i + 1, DigitValue(s[i])) else None
  }

  /** Reading just after a digit, `acc` being the value of the digits read so far. */
  function Digits(s: string, i: nat, acc: nat): Option<int>
    requires i <= |s|
    decreases |s| - i
  {
    if i == |s| then Some(acc)
    else if IsDigit(s[i]) then Digits(s, i + 1, acc * 10 + DigitValue(s[i]))
    else if s[i] == '_' && i + 1 < |s| && IsDigit(s[i + 1]) then
      Digits(s, i + 2, acc * 10 + DigitValue(s[i + 1]))
    else if IsSpace(s[i]) && AllSpace(s, i + 1) then Some(acc)
    else None
  }

  /** Nothing but whitespace from position `i` to the end. */
  predicate AllSpace(s: string, i: nat)
    requires i <= |s|
    decreases |s| - i
  {
    i == |s| || (IsSpace(s[i]) && AllSpace(s, i + 1))
  }

  // ---------------------------------------------------------------------------
  // Lemmas

  lemma {:induction false} ZerosValue(z: string)
    requires forall i | 0 <= i < |z| :: z[i] == '0'
    ensures AllDigits(z) && DigitsValue(z) == 0
    decreases |z|
  {
    if |z| > 0 {
      ZerosValue(z[..|z| - 1]);
    }
  }

  /** Leading zeros do not change the value of a numeral. */
  lemma {:induction false} LeadingZerosValue(z: string, s: string)
    requires forall i | 0 <= i < |z| :: z[i] == '0'
    requires AllDigits(s)
    ensures AllDigits(z + s) && DigitsValue(z + s) == DigitsValue(s)
    decreases |s|
  {
    if |s| == 0 {
      assert z + s == z;
      ZerosValue(z);
    } else {
      var zs := z + s;
      assert zs[..|zs| - 1] == z + s[..|s| - 1];
      LeadingZerosValue(z, s[..|s| - 1]);
    }
  }

  lemma PadZerosValue(s: string, width: nat)
    requires AllDigits(s)
    ensures AllDigits(PadZeros(s, width))
    ensures DigitsValue(PadZeros(s, width)) == DigitsValue(s)
    ensures |PadZeros(s, width)| >= width && |PadZeros(s, width)| >= |s|
  {
    if |s| < width {
      LeadingZerosValue(Zeros(width - |s|), s);
    }
  }

  /** Once the first digit of a run of digits is read, the reader continues the
      number: with `acc` the value of `s[j..i]` and the run `s[j..e]` followed by
      nothing but whitespace, it ends with the value of `s[j..e]`. */
  lemma {:induction false} DigitsReads(s: string, j: nat, i: nat, e: nat)
    requires j < i <= e <= |s|
    requires forall k | j <= k < e :: IsDigit(s[k])
    requires AllSpace(s, e)
    ensures AllDigits(s[j..i]) && AllDigits(s[j..e])
    ensures Digits(s, i, DigitsValue(s[j..i])) == Some(DigitsValue(s[j..e]))
    decreases e - i
  {
    if i < e {
      assert s[j..i + 1][..i - j] == s[j..i];
      DigitsReads(s, j, i + 1, e);
    }
  }

  /** Nothing but whitespace from position `p` on. */
  lemma {:induction false} AllSpaceFrom(s: string, p: nat)
    requires p <= |s|
    requires forall k | p <= k < |s| :: IsSpace(s[k])
    ensures AllSpace(s, p)
    decreases |s| - p
  {
    if p < |s| {
      AllSpaceFrom(s, p + 1);
    }
  }

  /** A non-empty numeral of digits only is read as the number it denotes. */
  lemma ParseDigits(s: string)
    requires |s| > 0 && AllDigits(s)
    ensures ParseInt(s) == Some(DigitsValue(s))
  {
    LiteralReads(s, 0, |s|);
    assert s[0..|s|] == s;
  }

  /** A minus sign followed by a non-empty numeral is read as its negation. */
  lemma ParseNegative(body: string)
    requires |body| > 0 && AllDigits(body)
    ensures ParseInt("-" + body) == Some(-(DigitsValue(body) as int))
  {
    var s := "-" + body;
    assert s[0..|s|] == s;
    NegativeBody(s, 0, |s|, body);
  }

  /** Leading zeros do not change the number `int()` reads, so "007" is 7. */
  lemma ParseIgnoresLeadingZeros(z: string, s: string)
    requires forall i | 0 <= i < |z| :: z[i] == '0'
    requires |s| > 0 && AllDigits(s)
    ensures ParseInt(z + s) == ParseInt(s)
  {
    LeadingZerosValue(z, s);
    ParseDigits(z + s);
    ParseDigits(s);
  }

  /** Reading back what `Format03` writes gives the number that was written. */
  lemma ParseFormatRoundTrip(n: int)
    ensures ParseInt(Format03(n)) == Some(n)
  {
    if n >= 0 {
      PadZerosValue(ShowNat(n), 3);
      ParseDigits(Format03(n));
    } else {
      PadZerosValue(ShowNat(-n), 2);
      ParseNegative(PadZeros(ShowNat(-n), 2));
    }
  }

  /** The first two product numbers are written "001" and "002"; padding never
      cuts a number short, so 1000 is written "1000". */
  lemma FormatSmall()
    ensures Format03(1) == "001"
    ensures Format03(2) == "002"
    ensures Format03(999) == "999"
    ensures Format03(1000) == "1000"
  {
    assert ShowNat(1) == "1";
    assert ShowNat(2) == "2";
    assert Zeros(2) == "00";
    assert ShowNat(9) == "9";
    assert ShowNat(99) == "99";
    assert ShowNat(999) == "999";
    assert ShowNat(1) == "1";
    assert ShowNat(10) == "10";
    assert ShowNat(100) == "100";
    assert ShowNat(1000) == "1000";
  }

  /** Whitespace around the number is ignored, including a non-ASCII space,
      but an ASCII information separator is not whitespace to `int()`. */
  lemma SpaceExamples()
    ensures ParseInt("\t7\n") == Some(7)
    ensures ParseInt("\U{A0}7") == Some(7)
    ensures ParseInt("\U{1C}7") == None
  {
    assert ParseInt("\U{1C}7") == None by {
      ParseRejectsForeignChar("\U{1C}7", 0);
    }
  }

  /** Different numbers are written differently. */
  lemma Format03Injective(m: int, n: int)
    requires Format03(m) == Format03(n)
    ensures m == n
  {
    ParseFormatRoundTrip(m);
    ParseFormatRoundTrip(n);
  }

  /** Whitespace on either side of a formatted number is ignored: for any runs
      of whitespace `w1` and `w2`, `int()` reads `w1 + format(n, "03d") + w2` as n. */
  lemma ParseSkipsSpace(w1: string, n: int, w2: string)
    requires forall k | 0 <= k < |w1| :: IsSpace(w1[k])
    requires forall k | 0 <= k < |w2| :: IsSpace(w2[k])
    ensures ParseInt(w1 + Format03(n) + w2) == Some(n)
  {
    var f := Format03(n);
    var s := w1 + f + w2;
    var a, b := |w1|, |w1| + |f|;
    assert s[a..b] == f;
    assert Lead(s, 0) == Lead(s, a) by {
      assert forall k | 0 <= k < a :: s[k] == w1[k];
      LeadSkipsSpace(s, 0, a);
    }
    assert AllSpace(s, b) by {
      assert forall k | b <= k < |s| :: s[k] == w2[k - b];
      AllSpaceFrom(s, b);
    }
    if n >= 0 {
      LeadReadsNatural(s, a, b, n);
    } else {
      LeadReadsNegative(s, a, b, n);
    }
  }

  /** `format(n, "03d")` of a natural n at `s[a..b]`, followed by whitespace, reads as n. */
  lemma LeadReadsNatural(s: string, a: nat, b: nat, n: int)
    requires 0 <= n && a <= b <= |s| && s[a..b] == Format03(n) && AllSpace(s, b)
    ensures Lead(s, a) == Some(n)
  {
    assert DigitsValue(s[a..b]) == n by {
      PadZerosValue(ShowNat(n), 3);
    }
    LiteralReads(s, a, b);
  }

  /** `format(n, "03d")` of a negative n at `s[a..b]`, followed by whitespace, reads as n. */
  lemma LeadReadsNegative(s: string, a: nat, b: nat, n: int)
    requires n < 0 && a <= b <= |s| && s[a..b] == Format03(n) && AllSpace(s, b)
    ensures Lead(s, a) == Some(n)
  {
    var body := PadZeros(ShowNat(-n), 2);
    PadZerosValue(ShowNat(-n), 2);
    NegativeBody(s, a, b, body);
  }

  /** A minus sign and a run of digits at `s[a..b]`, followed by whitespace,
      read as the negated value of the digits. */
  lemma NegativeBody(s: string, a: nat, b: nat, body: string)
    requires a <= b <= |s| && s[a..b] == "-" + body && AllSpace(s, b)
    requires |body| > 0 && AllDigits(body)
    ensures Lead(s, a) == Some(-(DigitsValue(body) as int))
  {
    assert s[a + 1..b] == body by {
      assert s[a + 1..b] == s[a..b][1..];
    }
    assert forall k | a + 1 <= k < b :: s[k] == body[k - (a + 1)];
    LiteralReads(s, a + 1, b);
    assert s[a] == '-';
  }

  /** A run of digits `s[j..e]` followed by nothing but whitespace is read as its value. */
  lemma LiteralReads(s: string, j: nat, e: nat)
    requires j < e <= |s| && AllSpace(s, e)
    requires forall k | j <= k < e :: IsDigit(s[k])
    ensures AllDigits(s[j..e]) && Literal(s, j) == Some(DigitsValue(s[j..e]))
  {
    assert s[j..j + 1][..0] == [];
    DigitsReads(s, j, j + 1, e);
  }

  /** Leading whitespace up to position `q` is skipped. */
  lemma {:induction false} LeadSkipsSpace(s: string, p: nat, q: nat)
    requires p <= q <= |s|
    requires forall k | p <= k < q :: IsSpace(s[k])
    ensures Lead(s, p) == Lead(s, q)
    decreases q - p
  {
    if p < q {
      LeadSkipsSpace(s, p + 1, q);
    }
  }

  /** A string without a digit is not an integer; in particular "" and
      whitespace alone are rejected. */
  lemma ParseNeedsDigit(s: string)
    requires forall k | 0 <= k < |s| :: !IsDigit(s[k])
    ensures ParseInt(s) == None
  {
    LeadNeedsDigit(s, 0);
  }

  lemma {:induction false} LeadNeedsDigit(s: string, p: nat)
    requires p <= |s|
    requires forall k | p <= k < |s| :: !IsDigit(s[k])
    ensures Lead(s, p) == None
    decreases |s| - p
  {
    if p < |s| && IsSpace(s[p]) {
      LeadNeedsDigit(s, p + 1);
    }
  }

  /** An underscore that does not stand between two digits, as in "_1", "1_",
      "1__0" or "-_1", makes the string not an integer. */
  lemma ParseRejectsStrayUnderscore(s: string, i: int)
    requires 0 <= i < |s| && s[i] == '_'
    requires !(0 < i && i + 1 < |s| && IsDigit(s[i - 1]) && IsDigit(s[i + 1]))
    ensures ParseInt(s) == None
  {
    LeadRejectsUnderscore(s, 0, i);
  }

  lemma {:induction false} LeadRejectsUnderscore(s: string, p: nat, i: nat)
    requires p <= i < |s| && s[i] == '_'
    requires !(0 < i && i + 1 < |s| && IsDigit(s[i - 1]) && IsDigit(s[i + 1]))
    ensures Lead(s, p) == None
    decreases i - p
  {
    if p < i {
      if IsSpace(s[p]) {
        LeadRejectsUnderscore(s, p + 1, i);
      } else if s[p] == '-' || s[p] == '+' {
        LiteralRejectsUnderscore(s, p + 1, i);
      } else {
        LiteralRejectsUnderscore(s, p, i);
      }
    }
  }

  lemma LiteralRejectsUnderscore(s: string, p: nat, i: nat)
    requires p <= i < |s| && s[i] == '_'
    requires !(0 < i && i + 1 < |s| && IsDigit(s[i - 1]) && IsDigit(s[i + 1]))
    ensures Literal(s, p) == None
  {
    if p < i && IsDigit(s[p]) {
      DigitsRejectsUnderscore(s, p + 1, DigitValue(s[p]), i);
    }
  }

  /** Reading just after the digit `s[p - 1]`, a stray underscore ahead still rejects. */
  lemma {:induction false} DigitsRejectsUnderscore(s: string, p: nat, acc: nat, i: nat)
    requires 0 < p <= i < |s| && s[i] == '_' && IsDigit(s[p - 1])
    requires !(0 < i && i + 1 < |s| && IsDigit(s[i - 1]) && IsDigit(s[i + 1]))
    ensures Digits(s, p, acc) == None
    decreases i - p
  {
    if p < i {
      if IsDigit(s[p]) {
        DigitsRejectsUnderscore(s, p + 1, acc * 10 + DigitValue(s[p]), i);
      } else if s[p] == '_' && p + 1 < |s| && IsDigit(s[p + 1]) {
        DigitsRejectsUnderscore(s, p + 2, acc * 10 + DigitValue(s[p + 1]), i);
      } else if IsSpace(s[p]) {
        AllSpaceRejects(s, p + 1, i);
      }
    }
  }

  /** A character that can be neither whitespace, sign, digit nor underscore. */
  predicate IsForeign(c: char) {
    !IsSpace(c) && !IsDigit(c) && c != '+' && c != '-' && c != '_'
  }

  /** A string holding a foreign character is not an integer. */
  lemma ParseRejectsForeignChar(s: string, i: int)
    requires 0 <= i < |s| && IsForeign(s[i])
    ensures ParseInt(s) == None
  {
    LeadStuck(s, 0, i, i, i);
  }

  /** A sign after some other non-whitespace character, as in "1-2", "--1" or
      "7-", makes the string not an integer. */
  lemma ParseRejectsLateSign(s: string, j: int, i: int)
    requires 0 <= j < i < |s| && !IsSpace(s[j])
    requires s[i] == '+' || s[i] == '-'
    ensures ParseInt(s) == None
  {
    LeadStuck(s, 0, j, i, i);
  }

  /** Whitespace between two non-whitespace characters, as in "1 2" or "- 7",
      makes the string not an integer. */
  lemma ParseRejectsInnerSpace(s: string, j: int, i: int, k: int)
    requires 0 <= j < i < k < |s|
    requires !IsSpace(s[j]) && IsSpace(s[i]) && !IsSpace(s[k])
    ensures ParseInt(s) == None
  {
    LeadStuck(s, 0, j, i, k);
  }

  /** The reader cannot get past position `i`: `s[i]` is neither a digit nor an
      underscore, a non-whitespace character follows at `k`, and a non-whitespace
      character at `j` ends the leading whitespace before `i` (or `s[i]` is no sign). */
  predicate Stuck(s: string, j: nat, i: nat, k: nat)
    requires j <= i <= k < |s|
  {
    && !IsSpace(s[j]) && !IsDigit(s[i]) && s[i] != '_' && !IsSpace(s[k])
    && (j < i || (s[i] != '+' && s[i] != '-'))
  }

  lemma {:induction false} LeadStuck(s: string, p: nat, j: nat, i: nat, k: nat)
    requires p <= j <= i <= k < |s| && Stuck(s, j, i, k)
    ensures Lead(s, p) == None
    decreases j - p
  {
    if IsSpace(s[p]) {
      LeadStuck(s, p + 1, j, i, k);
    } else if s[p] == '-' || s[p] == '+' {
      LiteralStuck(s, p + 1, i, k);
    } else {
      LiteralStuck(s, p, i, k);
    }
  }

  lemma LiteralStuck(s: string, q: nat, i: nat, k: nat)
    requires q <= i <= k < |s| && !IsDigit(s[i]) && s[i] != '_' && !IsSpace(s[k])
    ensures Literal(s, q) == None
  {
    if q < i && IsDigit(s[q]) {
      DigitsStuck(s, q + 1, DigitValue(s[q]), i, k);
    }
  }

  lemma {:induction false} DigitsStuck(s: string, q: nat, acc: nat, i: nat, k: nat)
    requires q <= i <= k < |s| && !IsDigit(s[i]) && s[i] != '_' && !IsSpace(s[k])
    ensures Digits(s, q, acc) == None
    decreases i - q
  {
    if q < i {
      if IsDigit(s[q]) {
        DigitsStuck(s, q + 1, acc * 10 + DigitValue(s[q]), i, k);
      } else if s[q] == '_' && q + 1 < |s| && IsDigit(s[q + 1]) {
        DigitsStuck(s, q + 2, acc * 10 + DigitValue(s[q + 1]), i, k);
      } else if IsSpace(s[q]) {
        AllSpaceRejects(s, q + 1, k);
      }
    } else if IsSpace(s[i]) && i < k {
      AllSpaceRejects(s, i + 1, k);
    }
  }

  /** A plus sign followed by a non-empty numeral is read as the numeral's value. */
  lemma ParsePlus(body: string)
    requires |body| > 0 && AllDigits(body)
    ensures ParseInt("+" + body) == Some(DigitsValue(body))
  {
    var s := "+" + body;
    assert s[1..|s|] == body;
    LiteralReads(s, 1, |s|);
  }

  /** A single underscore between two runs of digits is a separator: "1_0" is 10. */
  lemma ParseUnderscore(a: string, b: string)
    requires |a| > 0 && AllDigits(a) && |b| > 0 && AllDigits(b)
    ensures AllDigits(a + b) && ParseInt(a + "_" + b) == Some(DigitsValue(a + b))
  {
    UnderscoreJoin(a, b);
    ReadsAcrossUnderscore(a + "_" + b, |a|);
  }

  /** The positions of `a + "_" + b`: digits everywhere but at `|a|`, and
      dropping the underscore gives back `a + b`. */
  lemma UnderscoreJoin(a: string, b: string)
    requires |a| > 0 && AllDigits(a) && |b| > 0 && AllDigits(b)
    ensures var s := a + "_" + b;
            && |s| == |a| + |b| + 1 && s[|a|] == '_'
            && (forall k | 0 <= k < |s| && k != |a| :: IsDigit(s[k]))
            && s[..|a|] + [s[|a| + 1]] + s[|a| + 2..|s|] == a + b
  {
    var s := a + "_" + b;
    var n := |a|;
    assert forall k | 0 <= k < n :: s[k] == a[k];
    assert forall k | n < k < |s| :: s[k] == b[k - n - 1];
    assert s[..n] == a;
    assert [s[n + 1]] + s[n + 2..|s|] == b;
  }

  /** Digits, an underscore at `n`, and digits to the end read as the digits
      without the underscore. */
  lemma ReadsAcrossUnderscore(s: string, n: nat)
    requires 0 < n && n + 1 < |s| && s[n] == '_'
    requires forall k | 0 <= k < |s| && k != n :: IsDigit(s[k])
    ensures AllDigits(s[..n] + [s[n + 1]] + s[n + 2..|s|])
    ensures Lead(s, 0) == Some(DigitsValue(s[..n] + [s[n + 1]] + s[n + 2..|s|]))
  {
    LeadReadsPrefix(s, n);
    UnderscoreStep(s, s[..n], n);
    DigitsAppend(s, s[..n] + [s[n + 1]], n + 2, |s|);
  }

  /** Reading from the start a run of digits `s[..n]` (with no sign) leaves the
      reader at `n` holding their value. */
  lemma LeadReadsPrefix(s: string, n: nat)
    requires 0 < n <= |s| && forall k | 0 <= k < n :: IsDigit(s[k])
    ensures AllDigits(s[..n]) && Lead(s, 0) == Digits(s, n, DigitsValue(s[..n]))
  {
    assert IsDigit(s[0]) && !IsSpace(s[0]);
    assert Lead(s, 0) == Literal(s, 0) == Digits(s, 1, DigitValue(s[0]));
    assert DigitsValue(s[..1]) == DigitValue(s[0]) by {
      assert s[..1][..0] == [];
    }
    DigitsAppend(s, s[..1], 1, n);
    assert s[..1] + s[1..n] == s[..n];
  }

  /** An underscore followed by a digit continues the number. */
  lemma UnderscoreStep(s: string, x: string, n: nat)
    requires AllDigits(x) && n + 1 < |s| && s[n] == '_' && IsDigit(s[n + 1])
    ensures AllDigits(x + [s[n + 1]])
    ensures Digits(s, n, DigitsValue(x)) == Digits(s, n + 2, DigitsValue(x + [s[n + 1]]))
  {
    assert (x + [s[n + 1]])[..|x|] == x;
  }

  /** Reading a run of digits `s[i..e]` extends the digits read so far, `x`. */
  lemma {:induction false} DigitsAppend(s: string, x: string, i: nat, e: nat)
    requires AllDigits(x) && i <= e <= |s|
    requires forall k | i <= k < e :: IsDigit(s[k])
    ensures AllDigits(x + s[i..e])
    ensures Digits(s, i, DigitsValue(x)) == Digits(s, e, DigitsValue(x + s[i..e]))
    decreases e - i
  {
    if i == e {
      assert x + s[i..e] == x;
    } else {
      var y := x + [s[i]];
      assert y[..|x|] == x;
      DigitsAppend(s, y, i + 1, e);
      assert y + s[i + 1..e] == x + s[i..e];
    }
  }

  lemma {:induction false} AllSpaceRejects(s: string, p: nat, i: nat)
    requires p <= i < |s| && !IsSpace(s[i])
    ensures !AllSpace(s, p)
    decreases i - p
  {
    if p < i {
      AllSpaceRejects(s, p + 1, i);
    }
  }
}

=== FILE: results.dfy ===
/** Failure-carrying values shared by the rest of the model: an absent value
    (Python's `None`, or an empty pandas selection) and an operation that
    either succeeds or raises. */
module Results {

  /** A value that may be absent. */
  datatype Option<+T> = None | Some(value: T)

  /** The outcome of an operation that may raise: `Failure` carries what was raised. */
  datatype Result<+T, +E> = Success(value: T) | Failure(error: E)
}

=== FILE: sku.dfy ===
/** SKU allocation: the next product id is "P-" followed by one more than the
    largest numeric suffix among the stored ids, or "P-001" for an empty table. */
module Sku {
  import opened Results
  import opened DecimalText

  const Prefix: string := "P-"

  /** The range of numpy's default integer, into which the suffixes are cast. */
  const Int64Min: int := -0x8000_0000_0000_0000
  const Int64Max: int := 0x7FFF_FFFF_FFFF_FFFF

  /** Why an id's suffix cannot be read: the cast raises ValueError (not an
      integer literal) or OverflowError (outside the 64-bit range). */
  datatype SkuError = NotAnInteger(id: string) | OutOfInt64(id: string)

  /** True when "P-" occurs somewhere in `s`. */
  predicate HasMark(s: string) {
    exists i | 0 <= i < |s| - 1 :: MarkAt(s, i)
  }

  /** "P-" starts at position `i` of `s`. */
  predicate MarkAt(s: string, i: int)
    requires 0 <= i < |s| - 1
  {
    s[i] == 'P' && s[i + 1] == '-'
  }

  /** Python's `s.replace("P-", "")`: occurrences are found left to right without
      overlapping and removed in a single pass, so "PP--" becomes "P-". */
  function StripMarks(s: string): string {
    if |s| >= 2 && s[0] == 'P' && s[1] == '-' then StripMarks(s[2..])
    else if |s| == 0 then []
    else [s[0]] + StripMarks(s[1..])
  }

  /** Removing marks distributes over concatenation, as long as the cut does not
      split a "P-": every occurrence is removed wherever it stands. */
  lemma {:induction false} StripMarksAppend(a: string, b: string)
    requires !(|a| > 0 && |b| > 0 && a[|a| - 1] == 'P' && b[0] == '-')
    ensures StripMarks(a + b) == StripMarks(a) + StripMarks(b)
    decreases |a|
  {
    if |a| == 0 {
      assert a + b == b;
    } else if |a| >= 2 && a[0] == 'P' && a[1] == '-' {
      assert (a + b)[2..] == a[2..] + b;
      StripMarksAppend(a[2..], b);
    } else {
      assert (a + b)[0] == a[0];
      assert |a| == 1 && |b| > 0 ==> (a + b)[1] == b[0];
      assert |a| > 1 ==> (a + b)[1] == a[1] && a[1..][|a| - 2] == a[|a| - 1];
      assert (a + b)[1..] == a[1..] + b;
      StripMarksAppend(a[1..], b);
    }
  }

  /** A lone mark vanishes, the pass does not rescan what it produced, and
      every mark of a doubled prefix is removed. */
  lemma StripMarksExamples()
    ensures StripMarks("P-") == ""
    ensures StripMarks("PP--") == "P-"
    ensures StripMarks("P-P-7") == "7"
  {
    assert "PP--"[1..] == "P--";
    assert "P--"[2..] == "-";
    assert "P-P-7"[2..] == "P-7";
    assert "P-7"[2..] == "7";
  }

  /** The numeric suffix of a stored id, as `.str.replace('P-', '').astype(int)` reads it. */
  function Suffix(id: string): (r: Result<int, SkuError>)
    ensures r.Success? ==> Int64Min <= r.value <= Int64Max
  {
    match ParseInt(StripMarks(id))
    case None => Failure(NotAnInteger(id))
    case Some(v) => if Int64Min <= v <= Int64Max then Success(v) else Failure(OutOfInt64(id))
  }

  /** The id column mapped through `Suffix`, one outcome per stored id. */
  function SuffixColumn(ids: seq<string>): (r: seq<Result<int, SkuError>>)
    ensures |r| == |ids|
    ensures forall i | 0 <= i < |ids| :: r[i] == Suffix(ids[i])
  {
    if |ids| == 0 then [] else [Suffix(ids[0])] + SuffixColumn(ids[1..])
  }

  /** An element-wise cast of a whole column: every value when each element
      converts, otherwise what the first failing element raised. */
  function CastAll<T, E>(rs: seq<Result<T, E>>): (r: Result<seq<T>, E>)
    ensures r.Success? <==> forall i | 0 <= i < |rs| :: rs[i].Success?
    ensures r.Success? ==> |r.value| == |rs|
    ensures r.Success? ==> forall i | 0 <= i < |rs| :: r.value[i] == rs[i].value
    ensures r.Failure? ==> exists i | 0 <= i < |rs| ::
      && rs[i] == Failure(r.error)
      && forall j | 0 <= j < i :: rs[j].Success?
  {
    if |rs| == 0 then Success([])
    else
      match rs[0]
      case Failure(e) => Failure(e)
      case Success(v) =>
        match CastAll(rs[1..])
        case Failure(e) =>
          ghost var i :| 0 <= i < |rs| - 1 && rs[1..][i] == Failure(e)
                         && forall j | 0 <= j < i :: rs[1..][j].Success?;
          assert rs[i + 1] == Failure(e);
          Failure(e)
        case Success(vs) => Success([v] + vs)
  }

  /** `.astype(int)` on the stripped id column. */
  function Suffixes(ids: seq<string>): Result<seq<int>, SkuError> {
    CastAll(SuffixColumn(ids))
  }

  /** The largest element of a non-empty sequence (pandas `Series.max`). */
  function MaxOf(xs: seq<int>): (m: int)
    requires |xs| > 0
    ensures forall i | 0 <= i < |xs| :: xs[i] <= m
  {
    if |xs| == 1 then xs[0]
    else
      var rest := MaxOf(xs[1..]);
      if xs[0] >= rest then xs[0] else rest
  }

  /** `.astype(int).max()` on a non-empty id column, computed in one pass:
      the first id whose suffix cannot be read decides the error, otherwise
      the result is the largest suffix. */
  function MaxSuffix(ids: seq<string>): (r: Result<int, SkuError>)
    requires |ids| > 0
    ensures r.Success? ==> Int64Min <= r.value <= Int64Max
  {
    match Suffix(ids[0])
    case Failure(e) => Failure(e)
    case Success(v) =>
      if |ids| == 1 then Success(v)
      else
        match MaxSuffix(ids[1..])
        case Failure(e) => Failure(e)
        case Success(m) => Success(if v >= m then v else m)
  }

  /** `x + 1` on a numpy int64: past the top of the range it wraps to the bottom. */
  function Int64Succ(x: int): (r: int)
    requires Int64Min <= x <= Int64Max
    ensures Int64Min <= r <= Int64Max
  {
    if x == Int64Max then Int64Min else x + 1
  }

  /** The id "P-" + format(n, "03d"). */
  function SkuOf(n: int): string {
    Prefix + Format03(n)
  }

  /** `get_next_sku`: "P-001" for an empty table; otherwise one past the largest
      suffix, computed in int64, written with at least three digits. */
  function NextSku(ids: seq<string>): (r: Result<string, SkuError>)
    ensures |ids| == 0 ==> r == Success("P-001")
    ensures r.Success? ==> |r.value| >= 5 && r.value[..2] == Prefix
  {
    if |ids| == 0 then Success("P-001")
    else
      match MaxSuffix(ids)
      case Failure(e) => Failure(e)
      case Success(m) => Success(SkuOf(Int64Succ(m)))
  }

  /** Every stored id has a suffix the cast can read. */
  predicate AllReadable(ids: seq<string>) {
    forall i | 0 <= i < |ids| :: Suffix(ids[i]).Success?
  }

  /** No stored suffix sits at the top of the int64 range, the one value whose
      successor wraps around. */
  predicate BelowInt64Max(ids: seq<string>) {
    forall i | 0 <= i < |ids| :: Suffix(ids[i]).Success? ==> Suffix(ids[i]).value < Int64Max
  }

  /** The suffix of `ids[i]` can be read and no stored suffix exceeds it. */
  predicate IsMaxSuffixAt(ids: seq<string>, i: int)
    requires 0 <= i < |ids|
  {
    Suffix(ids[i]).Success? && forall j | 0 <= j < |ids| :: SuffixAtMost(ids[j], Suffix(ids[i]).value)
  }

  /** The id's suffix can be read and is at most `m`. */
  predicate SuffixAtMost(id: string, m: int) {
    Suffix(id).Success? && Suffix(id).value <= m
  }

  /** Ids numbered 1, 2, ..., n in order: the id column of a table filled
      only through allocation, starting from "P-001". */
  predicate IsRun(ids: seq<string>) {
    forall i | 0 <= i < |ids| :: Suffix(ids[i]) == Success(i + 1)
  }

  // ---------------------------------------------------------------------------
  // Lemmas

  /** Removing marks is the identity exactly on strings without a mark; when a
      mark is present the result is strictly shorter. */
  lemma {:induction false} StripMarksIdentity(s: string)
    ensures |StripMarks(s)| <= |s|
    ensures HasMark(s) ==> |StripMarks(s)| < |s|
    ensures StripMarks(s) == s <==> !HasMark(s)
    decreases |s|
  {
    if |s| >= 2 && s[0] == 'P' && s[1] == '-' {
      assert MarkAt(s, 0);
      StripMarksIdentity(s[2..]);
    } else if |s| > 0 {
      StripMarksIdentity(s[1..]);
      if HasMark(s) {
        var i :| 0 <= i < |s| - 1 && MarkAt(s, i);
        assert i > 0;
        assert MarkAt(s[1..], i - 1);
      }
      if HasMark(s[1..]) {
        var i :| 0 <= i < |s| - 2 && MarkAt(s[1..], i);
        assert MarkAt(s, i + 1);
      }
    }
  }

  /** The allocated id carries exactly the number it was formatted from. */
  lemma SuffixOfSku(n: int)
    requires Int64Min <= n <= Int64Max
    ensures Suffix(SkuOf(n)) == Success(n)
  {
    var f := Format03(n);
    assert !HasMark(f);
    StripMarksIdentity(f);
    assert StripMarks(SkuOf(n)) == StripMarks(f) by {
      assert SkuOf(n)[2..] == f;
    }
    ParseFormatRoundTrip(n);
  }

  /** Distinct numbers in range give distinct ids. */
  lemma SkuOfInjective(m: int, n: int)
    requires Int64Min <= m <= Int64Max && Int64Min <= n <= Int64Max
    requires SkuOf(m) == SkuOf(n)
    ensures m == n
  {
    SuffixOfSku(m);
    SuffixOfSku(n);
  }

  /** The maximum of a non-empty sequence is one of its elements. */
  lemma {:induction false} MaxOfAttained(xs: seq<int>)
    requires |xs| > 0
    ensures exists i | 0 <= i < |xs| :: xs[i] == MaxOf(xs)
    decreases |xs|
  {
    if |xs| == 1 || xs[0] >= MaxOf(xs[1..]) {
      assert xs[0] == MaxOf(xs);
    } else {
      MaxOfAttained(xs[1..]);
      var i :| 0 <= i < |xs| - 1 && xs[1..][i] == MaxOf(xs[1..]);
      assert xs[i + 1] == MaxOf(xs);
    }
  }

  /** The one-pass maximum agrees with pandas' two steps: cast the whole
      column, then take the maximum of the cast values. */
  lemma {:induction false} MaxSuffixIsColumnMax(ids: seq<string>)
    requires |ids| > 0
    ensures Suffixes(ids).Failure? ==> MaxSuffix(ids) == Failure(Suffixes(ids).error)
    ensures Suffixes(ids).Success? ==> MaxSuffix(ids) == Success(MaxOf(Suffixes(ids).value))
    decreases |ids|
  {
    var rs := SuffixColumn(ids);
    assert rs == [Suffix(ids[0])] + SuffixColumn(ids[1..]);
    assert rs[1..] == SuffixColumn(ids[1..]);
    if |ids| > 1 {
      MaxSuffixIsColumnMax(ids[1..]);
      if Suffixes(ids).Success? {
        var vs := Suffixes(ids).value;
        assert vs[1..] == Suffixes(ids[1..]).value;
      }
    }
  }

  /** The one-pass maximum succeeds exactly when every suffix can be read, and
      then it is a stored suffix that no other stored suffix exceeds. */
  lemma {:induction false} MaxSuffixBounds(ids: seq<string>)
    requires |ids| > 0
    ensures MaxSuffix(ids).Success? <==> AllReadable(ids)
    ensures MaxSuffix(ids).Success? ==>
      exists i | 0 <= i < |ids| :: IsMaxSuffixAt(ids, i) && Suffix(ids[i]) == MaxSuffix(ids)
    decreases |ids|
  {
    if |ids| > 1 {
      var tl := ids[1..];
      MaxSuffixBounds(tl);
      assert forall j | 0 <= j < |tl| :: tl[j] == ids[j + 1];
      if !AllReadable(tl) {
        var j :| 0 <= j < |tl| && Suffix(tl[j]).Failure?;
        assert Suffix(ids[j + 1]).Failure?;
      }
      if MaxSuffix(ids).Success? {
        var v := Suffix(ids[0]).value;
        var k :| 0 <= k < |tl| && IsMaxSuffixAt(tl, k) && Suffix(tl[k]) == MaxSuffix(tl);
        var m := MaxSuffix(tl).value;
        forall j | 1 <= j < |ids|
          ensures SuffixAtMost(ids[j], m)
        {
          assert SuffixAtMost(tl[j - 1], m);
        }
        if v >= m {
          assert IsMaxSuffixAt(ids, 0);
        } else {
          assert IsMaxSuffixAt(ids, k + 1);
        }
      }
    } else if MaxSuffix(ids).Success? {
      assert IsMaxSuffixAt(ids, 0);
    }
  }

  /** Allocation fails exactly when some stored id's suffix cannot be read. */
  lemma NextSkuFailsExactly(ids: seq<string>)
    ensures NextSku(ids).Failure? <==> !AllReadable(ids)
  {
    if |ids| > 0 {
      MaxSuffixBounds(ids);
    }
  }

  /** A failed allocation reports what the cast raised for the first stored id
      whose suffix cannot be read. */
  lemma NextSkuReportsFirstError(ids: seq<string>)
    requires NextSku(ids).Failure?
    ensures exists i | 0 <= i < |ids| ::
      && Suffix(ids[i]) == Failure(NextSku(ids).error)
      && forall j | 0 <= j < i :: Suffix(ids[j]).Success?
  {
    MaxSuffixIsColumnMax(ids);
    var rs := SuffixColumn(ids);
    var i :| 0 <= i < |rs| && rs[i] == Failure(CastAll(rs).error)
             && forall j | 0 <= j < i :: rs[j].Success?;
    assert Suffix(ids[i]) == rs[i];
    forall j | 0 <= j < i
      ensures Suffix(ids[j]).Success?
    {
      assert Suffix(ids[j]) == rs[j];
    }
  }

  /** On a non-empty table whose suffixes can all be read, some stored id holds
      the largest suffix m, and the new id is the one for m + 1 in int64 arithmetic. */
  lemma NextSkuIsMaxPlusOne(ids: seq<string>)
    requires |ids| > 0 && AllReadable(ids)
    ensures exists i | 0 <= i < |ids| ::
      && IsMaxSuffixAt(ids, i)
      && NextSku(ids) == Success(SkuOf(Int64Succ(Suffix(ids[i]).value)))
  {
    MaxSuffixBounds(ids);
  }

  /** On an empty table the first id is "P-001", whose number is 1. */
  lemma FirstSku()
    ensures NextSku([]) == Success(SkuOf(1))
    ensures Suffix(SkuOf(1)) == Success(1)
  {
    SkuOfSmall();
    SuffixOfSku(1);
  }

  lemma SkuOfSmall()
    ensures SkuOf(1) == "P-001" && SkuOf(2) == "P-002"
  {
    FormatSmall();
  }

  /** Allocation moves upwards: when it returns the id for n, every stored
      suffix is below n, unless a suffix sits at the top of the int64 range. */
  lemma NextSkuAboveAll(ids: seq<string>, n: int)
    requires AllReadable(ids) && BelowInt64Max(ids)
    requires Int64Min <= n <= Int64Max && NextSku(ids) == Success(SkuOf(n))
    ensures forall i | 0 <= i < |ids| :: Suffix(ids[i]).value < n
  {
    if |ids| > 0 {
      NextSkuIsMaxPlusOne(ids);
      var i :| 0 <= i < |ids| && IsMaxSuffixAt(ids, i)
               && NextSku(ids) == Success(SkuOf(Int64Succ(Suffix(ids[i]).value)));
      SkuOfInjective(n, Int64Succ(Suffix(ids[i]).value));
      forall j | 0 <= j < |ids|
        ensures Suffix(ids[j]).value < n
      {
        assert SuffixAtMost(ids[j], Suffix(ids[i]).value);
      }
    }
  }

  /** Freshness: the new id equals no stored id. */
  lemma NextSkuFresh(ids: seq<string>)
    requires AllReadable(ids) && BelowInt64Max(ids)
    ensures NextSku(ids).Success? && NextSku(ids).value !in ids
  {
    if |ids| > 0 {
      NextSkuIsMaxPlusOne(ids);
      var i :| 0 <= i < |ids| && IsMaxSuffixAt(ids, i)
               && NextSku(ids) == Success(SkuOf(Int64Succ(Suffix(ids[i]).value)));
      var n := Int64Succ(Suffix(ids[i]).value);
      SuffixOfSku(n);
      forall j | 0 <= j < |ids|
        ensures ids[j] != SkuOf(n)
      {
        assert SuffixAtMost(ids[j], Suffix(ids[i]).value);
      }
    }
  }

  /** Allocation continues a run without a gap: after ids numbered 1..n it
      returns the id "P-" + format(n + 1, "03d"), starting with "P-001" on the
      empty table. */
  lemma NextSkuContinuesRun(ids: seq<string>)
    requires IsRun(ids) && |ids| < Int64Max
    ensures NextSku(ids) == Success(SkuOf(|ids| + 1))
  {
    if |ids| == 0 {
      FirstSku();
    } else {
      RunMax(ids);
    }
  }

  /** The id that continues a run extends it. */
  lemma RunExtends(ids: seq<string>)
    requires IsRun(ids) && |ids| < Int64Max
    ensures IsRun(ids + [SkuOf(|ids| + 1)])
  {
    var ext := ids + [SkuOf(|ids| + 1)];
    assert forall i | 0 <= i < |ids| :: ext[i] == ids[i];
    SuffixOfSku(|ids| + 1);
  }

  /** The id that continues a run is not in it. */
  lemma RunFresh(ids: seq<string>)
    requires IsRun(ids) && |ids| < Int64Max
    ensures SkuOf(|ids| + 1) !in ids
  {
    SuffixOfSku(|ids| + 1);
    forall i | 0 <= i < |ids|
      ensures ids[i] != SkuOf(|ids| + 1)
    {
      assert Suffix(ids[i]) == Success(i + 1);
    }
  }

  /** The largest number in a non-empty run is its length. */
  lemma RunMax(ids: seq<string>)
    requires IsRun(ids) && 0 < |ids|
    ensures MaxSuffix(ids) == Success(|ids|)
  {
    MaxSuffixBounds(ids);
    var i :| 0 <= i < |ids| && IsMaxSuffixAt(ids, i) && Suffix(ids[i]) == MaxSuffix(ids);
    assert i == |ids| - 1 by {
      RunAt(ids, i);
      RunAt(ids, |ids| - 1);
      assert SuffixAtMost(ids[|ids| - 1], i + 1);
    }
    RunAt(ids, i);
  }

  lemma RunAt(ids: seq<string>, i: int)
    requires IsRun(ids) && 0 <= i < |ids|
    ensures Suffix(ids[i]) == Success(i + 1)
  {
  }

  /** At the top of the int64 range the successor wraps to the bottom: when a
      stored suffix is 2^63-1, the new id reads back as -2^63, below every
      stored suffix. */
  lemma NextSkuWraps(ids: seq<string>, i: int)
    requires 0 <= i < |ids| && AllReadable(ids)
    requires Suffix(ids[i]) == Success(Int64Max)
    ensures NextSku(ids).Success? && Suffix(NextSku(ids).value) == Success(Int64Min)
  {
    MaxSuffixBounds(ids);
    var k :| 0 <= k < |ids| && IsMaxSuffixAt(ids, k) && Suffix(ids[k]) == MaxSuffix(ids);
    assert SuffixAtMost(ids[i], Suffix(ids[k]).value);
    var m := MaxSuffix(ids).value;
    assert m == Int64Max;
    assert NextSku(ids) == Success(SkuOf(Int64Succ(m)));
    SuffixOfSku(Int64Succ(m));
  }

  /** The wrap-around lets allocation hand out a stored number again: with one
      suffix at 2^63-1 and another at -2^63, the new id carries the number of
      that second id. When it is stored as "P--9223372036854775808", the very
      id written by `SkuOf`, the two ids are equal and the insert hits the
      primary key. */
  lemma NextSkuWrapCollides(ids: seq<string>, i: int, j: int)
    requires 0 <= i < |ids| && 0 <= j < |ids| && AllReadable(ids)
    requires Suffix(ids[i]) == Success(Int64Max)
    requires Suffix(ids[j]) == Success(Int64Min)
    ensures NextSku(ids).Success? && Suffix(NextSku(ids).value) == Suffix(ids[j])
  {
    NextSkuWraps(ids, i);
  }

  /** A stored id whose suffix is not an integer, such as the lower-case "p-007"
      or "P-12a", makes allocation fail rather than return an id. */
  lemma NextSkuRejectsMalformed(ids: seq<string>, i: int, k: int)
    requires 0 <= i < |ids|
    requires 0 <= k < |StripMarks(ids[i])|
    requires IsForeign(StripMarks(ids[i])[k])
    ensures NextSku(ids).Failure?
  {
    ParseRejectsForeignChar(StripMarks(ids[i]), k);
    NextSkuFailsExactly(ids);
  }
}
